=== FILE: README.md ===
# dynamic-hystrix: a Dafny model of the Hystrix interception advice

The repository wraps calls to its service methods in Hystrix commands, driven
by configuration. The logic is one around-advice, the `@Aspect` component
`HystrixCommandAdvice`. For every intercepted call it:

1. derives the method's configuration key (`serviceMethod`) from the
   signature's long form, e.g. `public java.lang.String a.b.C.m()` gives
   `a.b.C.m`;
2. reads the per-method switch `hystrix.method.<key>` (default off) from
   Spring's environment;
3. if that switch and the global `hystrix.enable` switch are both on, builds
   a Hystrix command and runs it. Otherwise it runs the call directly;
4. for the command, reads `hystrix.timeout.<key>` (5000),
   `hystrix.default.return.<key>` (empty), `hystrix.requestSize.<key>` (50)
   and `hystrix.isolationStrategy.<key>` (`THREAD`) from Archaius, which
   trims every stored value. It picks semaphore isolation when the trimmed
   strategy is `SEMAPHORE` in any case, and a thread pool otherwise. The group key is the declaring type's simple name,
   a dot and the method name; the command key is the method name;
5. on fallback, builds the return value (`generateClass`):
   - `null` when the return type name or the configured text is blank;
   - the text itself when the type name contains `String`;
   - otherwise a new bean of that class, with fields filled from the
     configured JSON object.

   Any exception on this path becomes `null`.

The model is functional: immutable datatypes, and pure functions over
strings and maps. Each layer is one module:

- `wrappers.dfy`: `Option` and `Result`.
- `java_lang.dfy`: the Java exceptions and values the advice handles.
- `java_string.dfy`: the `String` and commons-lang operations, with Java's
  edge cases. A missing character gives position `-1`, and `substring`
  throws rather than clamping.
- `java_integer.dfy`: `Integer.parseInt` and its inverse `Integer.toString`.
- `signature.dfy`: the key and return type extraction. It also gives a
  reference printer for the long form, so extraction can be proved against it.
- `properties.dfy`: the two property stores, Spring's Boolean conversion and
  the per-method policy.
- `command_settings.dfy`: the command settings.
- `fallback.dfy`: `generateClass` and `getFallback`.
- `advice.dfy`: `runCommand`, `wrapWithHystrixCommnad` and `execute()`.

Behaviour of the code that the proofs make explicit:

- `serviceMethod` is the text after the last space and before the last `(`.
  `returnClass` is everything between the first and the last space. Both
  depend on how the join point prints the long form, and the advice does not
  fix that. So the printer is a parameter (`Signature.Printer`), with two
  layouts given:
  - AspectJ's puts `, ` between parameter types and nothing before the
    return type of a method without modifiers;
  - Spring AOP's puts `,` between parameter types and always writes a space
    after the modifiers, even when there are none.
- Under Spring AOP's layout, both substrings succeed for every method with
  at most one modifier, whatever its parameters
  (`Signature.SpringAopLongFormParses`).
- Under AspectJ's layout, a method with two or more parameters has a space
  after the last `(`. The substring on line 72 then throws, before any
  switch is read (`Signature.ServiceMethodFailsForSeveralParameters`).
- Under AspectJ's layout, a method without a modifier has a single space.
  The substring on line 103 then throws
  (`Signature.ReturnClassFailsWithoutModifier`), and once both switches are
  on the advice throws it too (`Advice.RunCommand`).
- With two modifiers, the second one stays in the return type name.
- The null-key defaults in `setter` (`commonGroupKey`, `commandKey`) are
  never used. The advice always passes non-null keys, and the group key
  always holds a dot.
- `hystrix.default.return.<key>` holds the fallback *value* (text or JSON).
  The *type* comes from the signature. The comment on line 113 calls this
  setting the return type, but line 154 passes it to `generateClass` as the
  value; the model follows line 154.

What the model takes as parameters:

- The join point's long-form printer. Which one runs is decided by the AOP
  framework, outside the repository, so both layouts above are given.
- The two property stores are `map<string, string>` values.
- The global switch (`HystrixConfig.enable`, default false) is a `bool`.
- fastjson's `parseObject` is a function from text to an optional member map.
- The class path maps a class name to its field names and to whether
  `newInstance` succeeds.
- Hystrix's verdict on one execution is a parameter: ran to completion,
  timed out, short-circuited, or rejected.
- What `proceed()` does is a parameter: it returns a value or throws.

## Model

| member | source | states |
|---|---|---|
| JavaString.IndexOf | src/main/java/com/cl/zuul/aop/HystrixCommandAdvice.java:103 | `indexOf(" ")` is -1 exactly when the character is absent; otherwise it is a position holding it, with none before it |
| JavaString.LastIndexOf | src/main/java/com/cl/zuul/aop/HystrixCommandAdvice.java:72 | `lastIndexOf` is -1 exactly when the character is absent; otherwise it is a position holding it, with none after it |
| JavaString.Substring | src/main/java/com/cl/zuul/aop/HystrixCommandAdvice.java:72 | `substring(b, e)` succeeds exactly when 0 <= b <= e <= length, with the characters from b on; otherwise it throws StringIndexOutOfBounds with those bounds |
| JavaString.Contains | src/main/java/com/cl/zuul/aop/HystrixCommandAdvice.java:225 | `contains` holds exactly when the pattern occurs at some position |
| JavaString.IsBlank | src/main/java/com/cl/zuul/aop/HystrixCommandAdvice.java:219 | `StringUtils.isBlank` is false exactly when the text is present and holds a character that is not whitespace; the empty text is blank |
| JavaString.EqualsIgnoreCase | src/main/java/com/cl/zuul/aop/HystrixCommandAdvice.java:168 | two texts are equal ignoring ASCII case exactly when their ASCII-lower-cased forms are equal, which needs equal lengths |
| JavaString.Trim | src/main/java/com/cl/zuul/aop/HystrixCommandAdvice.java:77 | the trimmed text is an infix with only characters up to U+0020 around it, and it starts and ends with something else |
| JavaInteger.ParseInt | src/main/java/com/cl/zuul/aop/HystrixCommandAdvice.java:109 | a text parses exactly when it is a run of ASCII digits, optionally after one `+` or `-`, whose signed value fits 32 bits; the value is that of the digits, negated after `-`; a non-digit after the first position, a bare sign, or a value beyond 32 bits gives nothing |
| JavaInteger.ParseIntOfIntToString | src/main/java/com/cl/zuul/aop/HystrixCommandAdvice.java:117 | parsing the printed form of any 32-bit int gives it back, so every configurable int is readable |
| Signature.ServiceMethod | src/main/java/com/cl/zuul/aop/HystrixCommandAdvice.java:72 | the key exists exactly when the last space comes before the last `(`; it is then the space-free word that ends right at the last `(`; otherwise it is a StringIndexOutOfBounds |
| Signature.ReturnClass | src/main/java/com/cl/zuul/aop/HystrixCommandAdvice.java:103 | the return type exists exactly when the first space comes before the last one; it is then the text strictly between them |
| Signature.SimpleName | src/main/java/com/cl/zuul/aop/HystrixCommandAdvice.java:125 | the simple name is a dot-free suffix of the type name, preceded by a dot unless it is the whole name |
| Signature.GroupKey | src/main/java/com/cl/zuul/aop/HystrixCommandAdvice.java:122-125 | the group key is a suffix of `declaringType.name` that ends with `.` and the method name and holds no other dot; the part it keeps of the type name is preceded there by a dot, unless it is the whole type name |
| Signature.ServiceMethodOfLongString | src/main/java/com/cl/zuul/aop/HystrixCommandAdvice.java:70-72 | whenever the printed parameter list holds no space (at most one parameter, or a separator without a space), the key is `declaringType.name`, for any modifiers |
| Signature.ServiceMethodFailsForSeveralParameters | src/main/java/com/cl/zuul/aop/HystrixCommandAdvice.java:72 | under a printer whose separator holds a space (AspectJ's), a method with two or more parameters makes the key extraction throw |
| Signature.ReturnClassOfLongString | src/main/java/com/cl/zuul/aop/HystrixCommandAdvice.java:100-103 | with one word before the return type (one modifier, or none under a printer that still writes the space) and no space in the parameter list, the extracted return type is the printed one |
| Signature.ReturnClassFailsWithoutModifier | src/main/java/com/cl/zuul/aop/HystrixCommandAdvice.java:103 | with no modifier, under a printer that writes nothing before the return type (AspectJ's), the return type extraction throws |
| Signature.SpringAopLongFormParses | src/main/java/com/cl/zuul/aop/HystrixCommandAdvice.java:72-103 | under Spring AOP's printer, every method with at most one modifier, whatever its parameters, yields `declaringType.name` as key and its return type |
| Signature.GroupKeyOfQualifiedType | src/main/java/com/cl/zuul/aop/HystrixCommandAdvice.java:122-125 | the group key of `pkg.Simple` is `Simple.method`, and an unqualified type is kept whole |
| Signature.GroupKeyIsSuffixOfServiceMethod | src/main/java/com/cl/zuul/aop/HystrixCommandAdvice.java:105-125 | whenever the key extraction succeeds on a printed signature, the group key is a suffix of the configuration key and contains a dot |
| Properties.DynamicInt | src/main/java/com/cl/zuul/aop/HystrixCommandAdvice.java:109 | an Archaius int is the parsed value of the trimmed text when that parses, and the default when the property is unset or malformed; it fits 32 bits |
| Properties.DynamicString | src/main/java/com/cl/zuul/aop/HystrixCommandAdvice.java:114-120 | an Archaius string is the stored text with `trim` applied (so it neither starts nor ends with a character up to U+0020, and may be empty), and the default only when the property is unset |
| Properties.ConvertBoolean | src/main/java/com/cl/zuul/aop/HystrixCommandAdvice.java:77 | Spring's flag conversion yields null exactly for blank text, true exactly when the trimmed, lower-cased text is `true`, `on`, `yes` or `1`, false exactly for `false`, `off`, `no` or `0`, and fails with InvalidBoolean on that text for anything else |
| Properties.ConvertBooleanIgnoresCaseAndPadding | src/main/java/com/cl/zuul/aop/HystrixCommandAdvice.java:77 | any case of a true or false word, with any surrounding spaces or controls, converts to that truth value |
| Properties.ConvertBooleanRejectsOtherWords | src/main/java/com/cl/zuul/aop/HystrixCommandAdvice.java:77 | any other word, whatever its case and padding, makes the conversion throw InvalidBoolean |
| Properties.EnvironmentBoolean | src/main/java/com/cl/zuul/aop/HystrixCommandAdvice.java:77 | an unset or blank switch reads as the default; a set switch that converts reads as its converted value; reading fails exactly when the stored text does not convert, with InvalidBoolean |
| Properties.EnvironmentBooleanOfPaddedWord | src/main/java/com/cl/zuul/aop/HystrixCommandAdvice.java:77 | a switch stored as a padded true or false word of any case reads as that truth value, and any other word makes reading it throw |
| Properties.ResolvePolicy | src/main/java/com/cl/zuul/aop/HystrixCommandAdvice.java:107-120 | each setting is the trimmed configured value under its own key when set; an int that is unset or whose trimmed text does not parse takes its default; both ints fit 32 bits |
| Properties.PolicyDefaults | src/main/java/com/cl/zuul/aop/HystrixCommandAdvice.java:109-120 | with nothing configured, the policy is timeout 5000, fallback text `""`, request size 50, strategy `THREAD` |
| Properties.KeysDistinct | src/main/java/com/cl/zuul/aop/HystrixCommandAdvice.java:35-47 | the five keys of one method are pairwise different |
| Properties.SettingsIndependent | src/main/java/com/cl/zuul/aop/HystrixCommandAdvice.java:109-120 | two stores that agree on one setting's key give the same value for that setting |
| Properties.TrimOfIntToString | src/main/java/com/cl/zuul/aop/HystrixCommandAdvice.java:109 | a printed int has no padding, so Archaius's trim keeps it as it is |
| Properties.DynamicIntOfPaddedNumber | src/main/java/com/cl/zuul/aop/HystrixCommandAdvice.java:109 | a printed 32-bit int with spaces or control characters around it reads as that int |
| CommandSettings.Setter | src/main/java/com/cl/zuul/aop/HystrixCommandAdvice.java:165-204 | semaphore isolation exactly when the strategy equals `SEMAPHORE` ignoring case, with the request size as permit count; otherwise a thread pool of that core size, with interrupt-on-timeout and timeout enabled; same timeout either way; null keys become `commonGroupKey` / `commandKey` |
| CommandSettings.StrategyIgnoresCase | src/main/java/com/cl/zuul/aop/HystrixCommandAdvice.java:168 | strategies equal up to case select the same isolation |
| CommandSettings.StrategySpellings | src/main/java/com/cl/zuul/aop/HystrixCommandAdvice.java:168-199 | `semaphore` and `Semaphore` select semaphores; `THREAD`, `""`, `SEMAPHORES` and null select the thread pool |
| Fallback.FieldMap | src/main/java/com/cl/zuul/aop/HystrixCommandAdvice.java:230-238 | the field map has one entry per JSON member, holding its text; it fails with NullPointer exactly when some member is null |
| Fallback.CollectFieldMap | src/main/java/com/cl/zuul/aop/HystrixCommandAdvice.java:231-238 | the member-by-member loop, in any key order, builds exactly that field map or fails the same way |
| Fallback.Fill | src/main/java/com/cl/zuul/aop/HystrixCommandAdvice.java:241-243 | the fresh bean has exactly the class's fields; those named in the map are set, the rest stay null |
| Fallback.FillIgnoresUnknownKeys | src/main/java/com/cl/zuul/aop/HystrixCommandAdvice.java:243 | map entries that name no field of the class do not change the bean |
| Fallback.GenerateClass | src/main/java/com/cl/zuul/aop/HystrixCommandAdvice.java:214-246 | null exactly when the type or the value is blank (checked first); a type containing `String` gives the text; it throws exactly when the JSON does not parse, a member is null, the class is unknown or it cannot be instantiated; in every other case a bean of the named class with exactly its fields, each holding the text of the JSON member of that name, or null |
| Fallback.GetFallback | src/main/java/com/cl/zuul/aop/HystrixCommandAdvice.java:150-160 | the fallback never throws: it is the generated value whenever generation succeeds, and null when it throws; it is null only for blank configuration or a failed generation |
| Fallback.StringFallback | src/main/java/com/cl/zuul/aop/HystrixCommandAdvice.java:225-228 | for any return type containing `String` and any non-blank text, the fallback is that text |
| Fallback.BeanFallback | src/main/java/com/cl/zuul/aop/HystrixCommandAdvice.java:230-245 | for every known, instantiable non-string class and JSON text that parses with no null member, the fallback is a bean of that class whose fields named in the JSON hold the members' texts and whose other fields are null |
| Fallback.PayloadFallback | src/main/java/com/cl/zuul/aop/HystrixCommandAdvice.java:230-245 | a Payload fallback from `{"code":"500","msg":"busy","x":"1"}` sets code and msg, ignores x and leaves context null |
| Fallback.NullMemberGivesNull | src/main/java/com/cl/zuul/aop/HystrixCommandAdvice.java:235 | a JSON member that is null makes the non-string fallback null |
| Advice.WrapWithHystrixCommand | src/main/java/com/cl/zuul/aop/HystrixCommandAdvice.java:98-127 | building the command fails exactly when either extraction throws (return type first); the settings are those of `setter` for the policy read under the gate's key: command key = method name, group key = simple name + `.` + method name (never the null default), the policy's timeout, and semaphore permits or a thread pool (interrupting, with timeout) of the configured request size as the strategy selects |
| Advice.GroupKeyIsNeverDefault | src/main/java/com/cl/zuul/aop/HystrixCommandAdvice.java:125-171 | the group key built from a join point always holds a dot before the method name, so it never equals the fallback group `commonGroupKey` |
| Advice.Execute | src/main/java/com/cl/zuul/aop/HystrixCommandAdvice.java:127-160 | a completed call returns its value; only a bad request that ran is thrown; a timeout, open circuit, rejection or other failure gives the fallback value |
| Advice.RunCommand | src/main/java/com/cl/zuul/aop/HystrixCommandAdvice.java:66-90 | the advice throws only a substring error, a flag conversion error, or the service's own exception; a bad key throws before anything else; a switch that does not convert throws before the service runs; a wrapped call whose return type cannot be extracted throws; a wrapped call that Hystrix does not complete, or whose service throws anything but a bad request, returns the fallback built from the extracted return type and the value configured under the call's key |
| Advice.Proceed | src/main/java/com/cl/zuul/aop/HystrixCommandAdvice.java:84-88 | the direct path returns exactly what the service returned, and rethrows exactly what it threw |
| Advice.MethodSwitch | src/main/java/com/cl/zuul/aop/HystrixCommandAdvice.java:77 | the method switch is off when unset, on exactly when its stored text converts to true, and throws exactly when that text does not convert |
| Advice.UnwrappedCallIsTransparent | src/main/java/com/cl/zuul/aop/HystrixCommandAdvice.java:80-89 | unless both switches are on, the caller sees exactly what the service returned or threw, whatever Hystrix or the policy say |
| Advice.SwitchDefaultsOff | src/main/java/com/cl/zuul/aop/HystrixCommandAdvice.java:77-80 | an unset method switch, or a global switch that is off, means a direct call |
| Advice.WrappedCallDegrades | src/main/java/com/cl/zuul/aop/HystrixCommandAdvice.java:140-160 | when wrapped, the advice fails only for a bad request that ran, passes a completed result through, and returns the fallback value both when Hystrix does not complete the call and when the service throws anything but a bad request |
| Advice.NoFallbackConfiguredYieldsNull | src/main/java/com/cl/zuul/aop/HystrixCommandAdvice.java:114 | wrapped, with no fallback text configured, a call that Hystrix does not complete, or whose service throws anything but a bad request, yields null |
| Advice.GateAndPolicyShareKey | src/main/java/com/cl/zuul/aop/HystrixCommandAdvice.java:72-114 | the call is wrapped exactly when the switch stored under the command's own configuration key reads `true` and the global switch is on, and the fallback text is read under that same key |
| Advice.CommandFollowsConfiguration | src/main/java/com/cl/zuul/aop/HystrixCommandAdvice.java:107-127 | a timeout and request size stored as printed ints, and any strategy text, give a command with that timeout and semaphore permits or a thread pool of that size as the trimmed strategy selects |
| Advice.StringMethodDegradesToConfiguredText | src/main/java/com/cl/zuul/aop/HystrixCommandAdvice.java:80-82 | end to end, under any printer whose long form the advice can take apart: a String method with its switch `true`, the global switch on and a fallback text configured that is not blank once trimmed returns the trimmed text when Hystrix does not complete the call or the service throws anything but a bad request |

## Left out

- Hystrix's execution engine: thread pools, semaphore permits, timers, the
  circuit breaker's rolling statistics, and the fallback's own semaphore.
  This is concurrency inside a library; its verdict is the `Admission`
  parameter.
- How Hystrix treats out-of-range settings, e.g. a non-positive core size or
  timeout. That is library validation.
- Archaius and Spring refresh mechanics, placeholder resolution and relaxed
  binding. The stores are plain maps read once per call.
- fastjson parsing and hutool's reflection. These are foreign calls: the
  parser and the class path are parameters.
- The `getBytes()` / `new String(..., "UTF-8")` round trips on lines 226
  and 235. They depend on the platform charset and are taken as identity.
- The `(Exception) throwable` casts on lines 88 and 135, which only matter
  for JVM `Error`s.
- Logging, the pointcut expression, `isCircuitBreakerOpen` in the log line,
  and the demo controller, services and bootstrap class.
- Fallback.Fill: hutool's matching of map keys to bean properties is
  reduced to exact name matching, and its conversion of text to non-string
  field types is not modelled; every field holds text or null. The `true`
  passed on line 243 is hutool's `isIgnoreError`: a value hutool cannot
  convert leaves its field unset instead of throwing. With text-only fields
  no such error arises here.
- JavaString.Substring: positions and lengths count Unicode scalar values,
  while Java counts UTF-16 code units. For text with characters outside the
  Basic Multilingual Plane the bounds carried by StringIndexOutOfBounds (and
  the positions `indexOf` returns) differ from Java's; the extracted text is
  the same.
- Signature.LongString: the two printer layouts are assumptions about
  AspectJ and Spring AOP, whose code is not part of this model. Every type
  is printed as one token without spaces, so generic parameter types
  that print with spaces are not covered.
- JavaString.EqualsIgnoreCase: case folding covers ASCII letters only.
  Java's `equalsIgnoreCase` also matches every non-ASCII cased pair (`é`
  and `É`, Greek, Cyrillic) and a few cross-script ones, such as U+017F
  (long s) against `S`. Unicode case tables are not modelled.
- CommandSettings.Setter: inherits the ASCII-only case folding of
  `JavaString.EqualsIgnoreCase`. A strategy spelled with U+017F would select
  semaphores in Java but a thread pool here.
- JavaString.IsBlank: whitespace follows `Character.isWhitespace` of Java 9
  and later. Java 8 also counts U+180E.
- Properties.ConvertBoolean: lower-casing covers ASCII letters only, whereas
  Java's `toLowerCase` is locale-dependent.
- JavaInteger.ParseInt: only ASCII digits are accepted. Java also accepts
  other Unicode decimal digits.

=== FILE: advice.dfy ===
/** The around-advice (`runCommand`, lines 66-90, and
    `wrapWithHystrixCommnad`, lines 98-162). A call is wrapped in a Hystrix
    command only when its method switch and the global switch are both on;
    otherwise it runs directly and its result or exception reaches the
    caller untouched. A wrapped call either returns the service's result or
    degrades to the fallback value; only a bad-request exception gets
    through.

    Hystrix's execution engine (thread pools, semaphores, timers, circuit
    breaker) is not modelled: its verdict on one execution is a parameter,
    `Admission`. */
module Advice {

  import opened Wrappers
  import opened JavaLang
  import opened JavaString
  import opened Signature
  import opened Properties
  import opened CommandSettings
  import opened Fallback
  import opened JavaInteger

  /** What the advice can ask the join point's signature. */
  datatype JoinPoint = JoinPoint(longString: string, declaringTypeName: string, name: string)

  /** What `pJoinPoint.proceed()` does when it runs. */
  datatype Invocation = Returned(value: Value) | Threw(error: Exception)

  /** Hystrix's verdict on one execution: the work ran to completion, or the
      fallback was taken because it timed out, the circuit was open, or the
      pool or semaphore was full. */
  datatype Admission = Admitted | TimedOut | ShortCircuited | Rejected

  /** The Hystrix command built for one call. */
  datatype Command = Command(
    setter: CommandSetter,
    serviceMethod: string,
    returnClass: string,
    defaultReturn: string)

  /** `pJoinPoint.proceed()` on the direct path: the service's value, or its
      exception rethrown unchanged. */
  function Proceed(call: Invocation): (r: Result<Value, Exception>)
    ensures r.Success? <==> call.Returned?
    ensures r.Success? ==> r.value == call.value
    ensures r.Failure? ==> r.error == call.error
  {
    match call
    case Returned(v) => Success(v)
    case Threw(e) => Failure(e)
  }

  /** `wrapWithHystrixCommnad`: parses the return type and the configuration
      key from the signature (in that order; either substring may throw),
      reads the policy for that key and builds the settings. */
  function WrapWithHystrixCommand(dynamic: PropertySource, jp: JoinPoint): (r: Result<Command, Exception>)
    ensures r.Success? <==> ReturnClass(jp.longString).Success? && ServiceMethod(jp.longString).Success?
    ensures ReturnClass(jp.longString).Failure? ==> r == Failure(ReturnClass(jp.longString).error)
    ensures r.Failure? ==> r.error.StringIndexOutOfBounds?
    ensures r.Success? ==>
              var key := ServiceMethod(jp.longString).value;
              var policy := ResolvePolicy(dynamic, key);
              && r.value.serviceMethod == key
              && r.value.returnClass == ReturnClass(jp.longString).value
              && r.value.defaultReturn == policy.defaultReturn
              && r.value.setter.commandKey == jp.name
              && r.value.setter.groupKey == GroupKey(jp.declaringTypeName, jp.name)
              && r.value.setter.groupKey != DefaultGroupKey
              && r.value.setter.timeoutMillis == policy.timeout
              && r.value.setter.isolation
                 == (if EqualsIgnoreCase(Semaphore, policy.strategy) then SemaphoreIsolation(policy.requestSize)
                     else ThreadIsolation(policy.requestSize, true, true))
    ensures r.Success? ==>
              var policy := ResolvePolicy(dynamic, ServiceMethod(jp.longString).value);
              r.value.setter == Setter(Some(GroupKey(jp.declaringTypeName, jp.name)), Some(jp.name),
                                       policy.timeout, policy.requestSize, Some(policy.strategy))
  {
    var returnClass :- ReturnClass(jp.longString);
    var serviceMethod :- ServiceMethod(jp.longString);
    var groupKey := GroupKey(jp.declaringTypeName, jp.name);
    GroupKeyIsNeverDefault(jp.declaringTypeName, jp.name);
    var policy := ResolvePolicy(dynamic, serviceMethod);
    var setter := Setter(Some(groupKey), Some(jp.name), policy.timeout, policy.requestSize, Some(policy.strategy));
    Success(Command(setter, serviceMethod, returnClass, policy.defaultReturn))
  }

  /** A group key always holds the dot before the method name, which the
      fallback group `commonGroupKey` lacks, so the advice never falls back
      to that group. */
  lemma GroupKeyIsNeverDefault(declaringTypeName: string, methodName: string)
    ensures GroupKey(declaringTypeName, methodName) != DefaultGroupKey
  {
    var groupKey := GroupKey(declaringTypeName, methodName);
    assert groupKey[|groupKey| - |methodName| - 1] == '.';
    assert '.' !in DefaultGroupKey;
  }

  /** `execute()` on the command: the service's result when it ran and
      returned; its exception when it ran and threw a bad request; the
      fallback value in every other case. */
  function Execute(command: Command, call: Invocation, admission: Admission, parse: JsonParser,
                   classes: ClassPath): (r: Result<Value, Exception>)
    ensures r.Failure? <==> admission == Admitted && call.Threw? && call.error.BadRequest?
    ensures r.Failure? ==> r.error == call.error
    ensures admission == Admitted && call.Returned? ==> r == Success(call.value)
    ensures admission != Admitted || (call.Threw? && !call.error.BadRequest?) ==>
              r == Success(GetFallback(command.returnClass, command.defaultReturn, parse, classes))
  {
    var fallback := GetFallback(command.returnClass, command.defaultReturn, parse, classes);
    if admission != Admitted then Success(fallback)
    else
      match call
      case Returned(v) => Success(v)
      case Threw(e) => if e.BadRequest? then Failure(e) else Success(fallback)
  }

  /** The method switch `hystrix.method.<key>`, off by default, or the
      exception that reading it throws. */
  function MethodSwitch(env: PropertySource, serviceMethod: string): (r: Result<bool, Exception>)
    ensures MethodKey(serviceMethod) !in env ==> r == Success(false)
    ensures r == Success(true) <==>
              MethodKey(serviceMethod) in env && ConvertBoolean(env[MethodKey(serviceMethod)]) == Success(Some(true))
    ensures r.Failure? <==>
              MethodKey(serviceMethod) in env && ConvertBoolean(env[MethodKey(serviceMethod)]).Failure?
  {
    EnvironmentBoolean(env, MethodKey(serviceMethod), false)
  }

  /** The call is wrapped: the key parses and both switches are on. */
  predicate Wrapped(env: PropertySource, enabled: bool, jp: JoinPoint) {
    && ServiceMethod(jp.longString).Success?
    && MethodSwitch(env, ServiceMethod(jp.longString).value) == Success(true)
    && enabled
  }

  /** `runCommand`: the advice around every intercepted call. `env` is
      Spring's environment, `enabled` the global `hystrix.enable` switch,
      `dynamic` the Archaius properties. */
  function RunCommand(env: PropertySource, enabled: bool, dynamic: PropertySource, parse: JsonParser,
                      classes: ClassPath, jp: JoinPoint, call: Invocation, admission: Admission): (r: Result<Value, Exception>)
    ensures r.Failure? ==> r.error.StringIndexOutOfBounds? || r.error.InvalidBoolean? || call == Threw(r.error)
    ensures ServiceMethod(jp.longString).Failure? ==> r == Failure(ServiceMethod(jp.longString).error)
    ensures (&& Wrapped(env, enabled, jp) && ReturnClass(jp.longString).Success?
             && call.Threw? && !call.error.BadRequest?) ==> r.Success?
    ensures (&& Wrapped(env, enabled, jp) && ReturnClass(jp.longString).Success?
             && (admission != Admitted || (call.Threw? && !call.error.BadRequest?))) ==>
              r == Success(GetFallback(ReturnClass(jp.longString).value,
                                       ResolvePolicy(dynamic, ServiceMethod(jp.longString).value).defaultReturn,
                                       parse, classes))
    ensures ServiceMethod(jp.longString).Success? && MethodSwitch(env, ServiceMethod(jp.longString).value).Failure? ==>
              r == Failure(MethodSwitch(env, ServiceMethod(jp.longString).value).error)
    ensures Wrapped(env, enabled, jp) && ReturnClass(jp.longString).Failure? ==>
              r == Failure(ReturnClass(jp.longString).error)
  {
    var serviceMethod :- ServiceMethod(jp.longString);
    var required :- MethodSwitch(env, serviceMethod);
    if required && enabled then
      var command :- WrapWithHystrixCommand(dynamic, jp);
      Execute(command, call, admission, parse, classes)
    else
      Proceed(call)
  }

  // ----- Lemmas -----

  /** Unless both switches are on, the call runs directly: the caller sees
      exactly what the service returned or threw, whatever Hystrix would have
      done and whatever the policy says. */
  lemma UnwrappedCallIsTransparent(env: PropertySource, enabled: bool, dynamic: PropertySource, parse: JsonParser,
                                   classes: ClassPath, jp: JoinPoint, call: Invocation, admission: Admission)
    requires ServiceMethod(jp.longString).Success?
    requires MethodSwitch(env, ServiceMethod(jp.longString).value).Success?
    requires !Wrapped(env, enabled, jp)
    ensures RunCommand(env, enabled, dynamic, parse, classes, jp, call, admission) == Proceed(call)
    ensures call.Threw? ==> RunCommand(env, enabled, dynamic, parse, classes, jp, call, admission) == Failure(call.error)
  {
  }

  /** The method switch defaults to off: an unset switch, or a global switch
      that is off, means a direct call. */
  lemma SwitchDefaultsOff(env: PropertySource, enabled: bool, dynamic: PropertySource, parse: JsonParser,
                          classes: ClassPath, jp: JoinPoint, call: Invocation, admission: Admission)
    requires ServiceMethod(jp.longString).Success?
    requires MethodKey(ServiceMethod(jp.longString).value) !in env || (!enabled && MethodSwitch(env, ServiceMethod(jp.longString).value).Success?)
    ensures RunCommand(env, enabled, dynamic, parse, classes, jp, call, admission) == Proceed(call)
  {
  }

  /** A wrapped call never surfaces a timeout, an open circuit, a full pool
      or the service's own failure: the caller gets the result or the
      fallback value. Only a bad request that ran gets through. */
  lemma WrappedCallDegrades(env: PropertySource, enabled: bool, dynamic: PropertySource, parse: JsonParser,
                            classes: ClassPath, jp: JoinPoint, call: Invocation, admission: Admission)
    requires Wrapped(env, enabled, jp)
    requires ReturnClass(jp.longString).Success?
    ensures var r := RunCommand(env, enabled, dynamic, parse, classes, jp, call, admission);
            var command := WrapWithHystrixCommand(dynamic, jp).value;
            && (r.Failure? <==> admission == Admitted && call.Threw? && call.error.BadRequest?)
            && (admission == Admitted && call.Returned? ==> r == Success(call.value))
            && (admission != Admitted || (call.Threw? && !call.error.BadRequest?) ==>
                  r == Success(GetFallback(command.returnClass, command.defaultReturn, parse, classes)))
  {
  }

  /** With no fallback value configured for the method, a wrapped call that
      Hystrix does not complete, or whose service throws anything but a bad
      request, yields null. */
  lemma NoFallbackConfiguredYieldsNull(env: PropertySource, enabled: bool, dynamic: PropertySource, parse: JsonParser,
                                       classes: ClassPath, jp: JoinPoint, call: Invocation, admission: Admission)
    requires Wrapped(env, enabled, jp)
    requires ReturnClass(jp.longString).Success?
    requires DefaultReturnKey(ServiceMethod(jp.longString).value) !in dynamic
    requires admission != Admitted || (call.Threw? && !call.error.BadRequest?)
    ensures RunCommand(env, enabled, dynamic, parse, classes, jp, call, admission) == Success(Null)
  {
  }

  /** The gate and the policy read their settings under the same
      configuration key: the call is wrapped exactly when the switch stored
      under the command's own key reads `true` and the global switch is on. */
  lemma GateAndPolicyShareKey(env: PropertySource, enabled: bool, dynamic: PropertySource, jp: JoinPoint)
    requires ServiceMethod(jp.longString).Success? && ReturnClass(jp.longString).Success?
    ensures var command := WrapWithHystrixCommand(dynamic, jp).value;
            && (Wrapped(env, enabled, jp) <==> enabled && MethodSwitch(env, command.serviceMethod) == Success(true))
            && command.defaultReturn == ResolvePolicy(dynamic, command.serviceMethod).defaultReturn
  {
  }

  /** The settings reach the command as configured: a timeout and a request
      size stored as `Integer.toString` text, and any strategy text, give a
      command with that timeout, and semaphore permits or a thread pool of
      that size as the trimmed strategy text selects. */
  lemma CommandFollowsConfiguration(jp: JoinPoint, dynamic: PropertySource, timeout: int, size: int, strategy: string)
    requires ServiceMethod(jp.longString).Success? && ReturnClass(jp.longString).Success?
    requires IsInt32(timeout) && IsInt32(size)
    requires var key := ServiceMethod(jp.longString).value;
             && TimeoutKey(key) in dynamic && dynamic[TimeoutKey(key)] == IntToString(timeout)
             && RequestSizeKey(key) in dynamic && dynamic[RequestSizeKey(key)] == IntToString(size)
             && StrategyKey(key) in dynamic && dynamic[StrategyKey(key)] == strategy
    ensures var setter := WrapWithHystrixCommand(dynamic, jp).value.setter;
            && setter.timeoutMillis == timeout
            && setter.isolation == (if EqualsIgnoreCase(Semaphore, Trim(strategy)) then SemaphoreIsolation(size)
                                    else ThreadIsolation(size, true, true))
  {
    TrimOfIntToString(timeout);
    TrimOfIntToString(size);
    ParseIntOfIntToString(timeout);
    ParseIntOfIntToString(size);
  }

  /** Spring reads the text `true` as on. */
  lemma TrueSwitchIsOn()
    ensures ConvertBoolean("true") == Success(Some(true))
  {
    TrimOfPadded("", "true", "");
    assert "" + "true" + "" == "true";
    assert ToLowerCase("true") == "true";
  }

  /** End to end, for any method whose long form the advice can take apart
      (one modifier, or none under a printer that still writes the space;
      at most one parameter, or a separator without a space) and whose
      return type names `String`, such as the demo service's
      `public java.lang.String ...test()`: with its switch set to `true`,
      the global switch on and a fallback text configured that is not blank
      once trimmed, a call that Hystrix does not complete, or whose service
      throws anything but a bad request, returns the trimmed text. */
  lemma StringMethodDegradesToConfiguredText(p: Printer, m: MethodSig, value: string, parse: JsonParser,
                                             classes: ClassPath, call: Invocation, admission: Admission)
    requires WellFormed(m) && '(' !in p.parameterSeparator
    requires |m.modifiers| == 1 || (|m.modifiers| == 0 && p.spaceWithoutModifiers)
    requires |m.parameterTypes| <= 1 || ' ' !in p.parameterSeparator
    requires Contains(m.returnType, "String")
    requires !IsBlank(Some(Trim(value)))
    requires admission != Admitted || (call.Threw? && !call.error.BadRequest?)
    ensures RunCommand(map[MethodKey(QualifiedName(m)) := "true"], true, map[DefaultReturnKey(QualifiedName(m)) := value],
                       parse, classes, JoinPoint(LongString(p, m), m.declaringType, m.name), call, admission)
            == Success(Text(Trim(value)))
  {
    ServiceMethodOfLongString(p, m);
    ReturnClassOfLongString(p, m);
    TrueSwitchIsOn();
    var key := QualifiedName(m);
    var env := map[MethodKey(key) := "true"];
    var dynamic := map[DefaultReturnKey(key) := value];
    var jp := JoinPoint(LongString(p, m), m.declaringType, m.name);
    assert MethodSwitch(env, key) == Success(true);
    assert Wrapped(env, true, jp);
    WrappedCallDegrades(env, true, dynamic, parse, classes, jp, call, admission);
    var command := WrapWithHystrixCommand(dynamic, jp).value;
    assert command.returnClass == m.returnType;
    assert command.defaultReturn == Trim(value);
    StringFallback(m.returnType, Trim(value), parse, classes);
  }
}

=== FILE: command_settings.dfy ===
/** The Hystrix command settings built for one call (`setter`, lines
    165-204): semaphore isolation when the strategy reads `SEMAPHORE` in any
    case, thread-pool isolation otherwise. The settings are a record here;
    what Hystrix does with them is outside the model. */
module CommandSettings {

  import opened Wrappers
  import opened JavaString

  datatype Isolation =
    | SemaphoreIsolation(maxConcurrentRequests: int)
    | ThreadIsolation(coreSize: int, interruptOnTimeout: bool, timeoutEnabled: bool)

  datatype CommandSetter = CommandSetter(
    groupKey: string,
    commandKey: string,
    isolation: Isolation,
    timeoutMillis: int)

  const DefaultGroupKey: string := "commonGroupKey"
  const DefaultCommandKey: string := "commandKey"
  const Semaphore: string := "SEMAPHORE"

  /** `"SEMAPHORE".equalsIgnoreCase(strategy)`; false for a null strategy. */
  predicate IsSemaphore(strategy: Option<string>) {
    strategy.Some? && EqualsIgnoreCase(Semaphore, strategy.value)
  }

  /** The settings for a command; a null key (`None`) is replaced by a
      fixed name. Both branches carry the same keys and timeout; the
      request size becomes the permit count or the pool's core size. */
  function Setter(groupKey: Option<string>, commandKey: Option<string>, timeout: int, requestSize: int,
                  strategy: Option<string>): (r: CommandSetter)
    ensures r.groupKey == groupKey.GetOr(DefaultGroupKey)
    ensures r.commandKey == commandKey.GetOr(DefaultCommandKey)
    ensures r.timeoutMillis == timeout
    ensures r.isolation.SemaphoreIsolation? <==> IsSemaphore(strategy)
    ensures r.isolation.SemaphoreIsolation? ==> r.isolation.maxConcurrentRequests == requestSize
    ensures r.isolation.ThreadIsolation? ==> r.isolation == ThreadIsolation(requestSize, true, true)
  {
    var group := if groupKey.None? then DefaultGroupKey else groupKey.value;
    var command := if commandKey.None? then DefaultCommandKey else commandKey.value;
    if IsSemaphore(strategy) then
      CommandSetter(group, command, SemaphoreIsolation(requestSize), timeout)
    else
      CommandSetter(group, command, ThreadIsolation(requestSize, true, true), timeout)
  }

  /** Two strategies that are equal up to ASCII case select the same
      isolation. */
  lemma StrategyIgnoresCase(s1: string, s2: string, g: Option<string>, c: Option<string>, timeout: int, size: int)
    requires EqualsIgnoreCase(s1, s2)
    ensures Setter(g, c, timeout, size, Some(s1)).isolation == Setter(g, c, timeout, size, Some(s2)).isolation
  {
  }

  /** A few spellings: any case of `SEMAPHORE` selects semaphores; the
      default `THREAD`, the empty text, a near miss and a null strategy
      select the thread pool. */
  lemma StrategySpellings(g: Option<string>, c: Option<string>, timeout: int, size: int)
    ensures Setter(g, c, timeout, size, Some("semaphore")).isolation == SemaphoreIsolation(size)
    ensures Setter(g, c, timeout, size, Some("Semaphore")).isolation == SemaphoreIsolation(size)
    ensures Setter(g, c, timeout, size, Some("THREAD")).isolation == ThreadIsolation(size, true, true)
    ensures Setter(g, c, timeout, size, Some("")).isolation == ThreadIsolation(size, true, true)
    ensures Setter(g, c, timeout, size, Some("SEMAPHORES")).isolation == ThreadIsolation(size, true, true)
    ensures Setter(g, c, timeout, size, None).isolation == ThreadIsolation(size, true, true)
  {
    assert EqualsIgnoreCase(Semaphore, "semaphore");
    assert EqualsIgnoreCase(Semaphore, "Semaphore");
  }
}

=== FILE: fallback.dfy ===
/** The fallback value (`generateClass`, lines 214-246, and `getFallback`,
    lines 150-160): nothing when no type or value is configured, the text
    itself for a string type, otherwise a fresh bean of the named class
    whose fields are set from a flat JSON object. Every exception on the
    way turns into `null`.

    The JSON parser and the class path are parameters: the parser maps the
    text to its members, or to nothing when fastjson throws; a class is
    known by its settable field names and whether it can be instantiated. */
module Fallback {

  import opened Wrappers
  import opened JavaLang
  import opened JavaString

  /** A member of a parsed JSON object as `getString` returns it: null, or
      the member's text. */
  datatype JsonValue = JsonNull | JsonText(text: string)

  type JsonObject = map<string, JsonValue>

  /** `JSONObject.parseObject(text)`: `None` when it throws or yields null. */
  type JsonParser = string -> Option<JsonObject>

  /** What `Class.forName` finds: the bean's field names and whether
      `newInstance` succeeds. */
  datatype ClassInfo = ClassInfo(fields: set<string>, instantiable: bool)

  type ClassPath = map<string, ClassInfo>

  /** The string-to-string map built from the JSON members (lines 231-238):
      one entry per member with its text. A null member makes `getBytes`
      throw. */
  function FieldMap(json: JsonObject): (r: Result<map<string, string>, Exception>)
    ensures r.Success? <==> forall k :: k in json ==> json[k].JsonText?
    ensures r.Success? ==> r.value.Keys == json.Keys
    ensures r.Success? ==> forall k :: k in json ==> json[k] == JsonText(r.value[k])
    ensures r.Failure? ==> r.error == NullPointer
  {
    if forall k :: k in json ==> json[k].JsonText? then
      Success(map k | k in json :: json[k].text)
    else
      Failure(NullPointer)
  }

  /** The loop of lines 233-238, one member at a time, in whatever order the
      key set yields them. */
  method CollectFieldMap(json: JsonObject) returns (r: Result<map<string, string>, Exception>)
    ensures r == FieldMap(json)
  {
    var keys := json.Keys;
    var fieldMap: map<string, string> := map[];
    while keys != {}
      invariant keys <= json.Keys
      invariant fieldMap.Keys == json.Keys - keys
      invariant forall k :: k in fieldMap ==> json[k] == JsonText(fieldMap[k])
      decreases keys
    {
      var key :| key in keys;
      match json[key]
      case JsonNull =>
        return Failure(NullPointer);
      case JsonText(text) =>
        fieldMap := fieldMap[key := text];
        keys := keys - {key};
    }
    assert forall k :: k in json ==> json[k].JsonText?;
    assert fieldMap == map k | k in json :: json[k].text;
    return Success(fieldMap);
  }

  /** `BeanUtil.fillBeanWithMap` on a fresh instance: every field the map
      names is set, every other field keeps its null. */
  function Fill(fields: set<string>, fieldMap: map<string, string>): (r: map<string, Option<string>>)
    ensures r.Keys == fields
    ensures forall f :: f in fields && f in fieldMap ==> r[f] == Some(fieldMap[f])
    ensures forall f :: f in fields && f !in fieldMap ==> r[f] == None
  {
    map f | f in fields :: if f in fieldMap then Some(fieldMap[f]) else None
  }

  /** `generateClass(clazzPackage, defaultValue)`. */
  function GenerateClass(clazz: Option<string>, defaultValue: Option<string>, parse: JsonParser,
                         classes: ClassPath): (r: Result<Value, Exception>)
    ensures IsBlank(clazz) || IsBlank(defaultValue) ==> r == Success(Null)
    ensures r.Success? && r.value.Null? ==> IsBlank(clazz) || IsBlank(defaultValue)
    ensures r.Success? && r.value.Text? <==>
              !IsBlank(clazz) && !IsBlank(defaultValue) && Contains(clazz.value, "String")
    ensures r.Success? && r.value.Text? ==> r.value.text == defaultValue.value
    ensures r.Success? && r.value.Bean? ==>
              && !IsBlank(clazz) && !IsBlank(defaultValue) && !Contains(clazz.value, "String")
              && clazz.value in classes && classes[clazz.value].instantiable
              && r.value.className == clazz.value
              && parse(defaultValue.value).Some?
              && var json := parse(defaultValue.value).value;
                 && r.value.fields.Keys == classes[clazz.value].fields
                 && (forall f :: f in r.value.fields && f in json ==> json[f].JsonText? && r.value.fields[f] == Some(json[f].text))
                 && (forall f :: f in r.value.fields && f !in json ==> r.value.fields[f] == None)
    ensures r.Failure? <==>
              && !IsBlank(clazz) && !IsBlank(defaultValue) && !Contains(clazz.value, "String")
              && (|| parse(defaultValue.value).None?
                  || FieldMap(parse(defaultValue.value).value).Failure?
                  || clazz.value !in classes
                  || !classes[clazz.value].instantiable)
  {
    if IsBlank(clazz) || IsBlank(defaultValue) then Success(Null)
    else if Contains(clazz.value, "String") then Success(Text(defaultValue.value))
    else
      match parse(defaultValue.value)
      case None => Failure(JsonSyntax(defaultValue.value))
      case Some(json) =>
        var fieldMap :- FieldMap(json);
        if clazz.value !in classes then Failure(ClassNotFound(clazz.value))
        else if !classes[clazz.value].instantiable then Failure(Instantiation(clazz.value))
        else Success(Bean(clazz.value, Fill(classes[clazz.value].fields, fieldMap)))
  }

  /** `getFallback()`: the generated value, or `null` when generation throws.
      It never throws itself. */
  function GetFallback(returnClass: string, defaultReturn: string, parse: JsonParser, classes: ClassPath): (r: Value)
    ensures GenerateClass(Some(returnClass), Some(defaultReturn), parse, classes).Failure? ==> r == Null
    ensures IsBlank(Some(returnClass)) || IsBlank(Some(defaultReturn)) ==> r == Null
    ensures r.Text? ==> Contains(returnClass, "String") && r.text == defaultReturn
    ensures r.Bean? ==> r.className == returnClass && returnClass in classes
                        && r.fields.Keys == classes[returnClass].fields
    ensures r.Null? ==> || IsBlank(Some(returnClass)) || IsBlank(Some(defaultReturn))
                        || GenerateClass(Some(returnClass), Some(defaultReturn), parse, classes).Failure?
    ensures GenerateClass(Some(returnClass), Some(defaultReturn), parse, classes).Success? ==>
              r == GenerateClass(Some(returnClass), Some(defaultReturn), parse, classes).value
  {
    match GenerateClass(Some(returnClass), Some(defaultReturn), parse, classes)
    case Success(v) => v
    case Failure(_) => Null
  }

  // ----- Lemmas -----

  /** Filling ignores map entries that name no field of the class. */
  lemma FillIgnoresUnknownKeys(fields: set<string>, fieldMap: map<string, string>, extra: map<string, string>)
    requires extra.Keys !! fields
    ensures Fill(fields, fieldMap + extra) == Fill(fields, fieldMap)
  {
  }

  /** A type name without an `S` cannot contain `String`. */
  lemma NoStringWithoutS(s: string)
    requires 'S' !in s
    ensures !Contains(s, "String")
  {
    forall i
      ensures !OccursAt(s, "String", i)
    {
      if 0 <= i && i + 6 <= |s| {
        assert s[i..i + 6][0] == s[i];
      }
    }
  }

  /** Text whose first character is not whitespace is not blank. */
  lemma NotBlank(s: string)
    requires |s| > 0 && !IsWhitespace(s[0])
    ensures !IsBlank(Some(s))
  {
  }

  /** A type name that contains `String` is not blank. */
  lemma StringTypeNotBlank(returnClass: string)
    requires Contains(returnClass, "String")
    ensures !IsBlank(Some(returnClass))
  {
    var i :| OccursAt(returnClass, "String", i);
    assert returnClass[i..i + 6][0] == returnClass[i];
    assert !IsWhitespace(returnClass[i]);
  }

  /** A return type whose name contains `String` gets the configured text
      back unchanged, whatever the parser and the class path. */
  lemma StringFallback(returnClass: string, value: string, parse: JsonParser, classes: ClassPath)
    requires Contains(returnClass, "String")
    requires !IsBlank(Some(value))
    ensures GetFallback(returnClass, value, parse, classes) == Text(value)
  {
    StringTypeNotBlank(returnClass);
  }

  /** A return type that names a known, instantiable class other than a
      string, with JSON text that parses and has no null member, falls back
      to a fresh bean of that class: every field the JSON names holds the
      member's text, every other field is null. */
  lemma BeanFallback(returnClass: string, defaultReturn: string, parse: JsonParser, classes: ClassPath)
    requires !IsBlank(Some(returnClass)) && !IsBlank(Some(defaultReturn))
    requires !Contains(returnClass, "String")
    requires returnClass in classes && classes[returnClass].instantiable
    requires parse(defaultReturn).Some?
    requires forall k :: k in parse(defaultReturn).value ==> parse(defaultReturn).value[k].JsonText?
    ensures var json := parse(defaultReturn).value;
            GetFallback(returnClass, defaultReturn, parse, classes)
            == Bean(returnClass, map f | f in classes[returnClass].fields ::
                                   if f in json then Some(json[f].text) else None)
  {
  }

  const PayloadClass: string := "com.cl.zuul.entity.Payload"
  const PayloadJson: string := "{\"code\":\"500\",\"msg\":\"busy\",\"x\":\"1\"}"

  lemma PayloadFieldMap()
    ensures FieldMap(map["code" := JsonText("500"), "msg" := JsonText("busy"), "x" := JsonText("1")])
         == Success(map["code" := "500", "msg" := "busy", "x" := "1"])
  {
    var json := map["code" := JsonText("500"), "msg" := JsonText("busy"), "x" := JsonText("1")];
    var m := map k | k in json :: json[k].text;
    assert json.Keys == {"code", "msg", "x"};
    assert m.Keys == {"code", "msg", "x"};
    assert m == map["code" := "500", "msg" := "busy", "x" := "1"];
  }

  lemma PayloadFill()
    ensures Fill({"code", "msg", "context"}, map["code" := "500", "msg" := "busy", "x" := "1"])
         == map["code" := Some("500"), "msg" := Some("busy"), "context" := None]
  {
  }

  /** A `Payload` fallback: configured members are set, an unknown member
      is ignored, and a member that is not configured stays null. */
  lemma PayloadFallback(parse: JsonParser, classes: ClassPath)
    requires classes == map[PayloadClass := ClassInfo({"code", "msg", "context"}, true)]
    requires parse(PayloadJson) == Some(map["code" := JsonText("500"), "msg" := JsonText("busy"), "x" := JsonText("1")])
    ensures GetFallback(PayloadClass, PayloadJson, parse, classes)
            == Bean(PayloadClass, map["code" := Some("500"), "msg" := Some("busy"), "context" := None])
  {
    NotBlank(PayloadClass);
    NotBlank(PayloadJson);
    NoStringWithoutS(PayloadClass);
    PayloadFieldMap();
    PayloadFill();
    var fields := map["code" := Some("500"), "msg" := Some("busy"), "context" := None];
    assert GenerateClass(Some(PayloadClass), Some(PayloadJson), parse, classes) == Success(Bean(PayloadClass, fields));
  }

  /** A JSON member that is null makes the whole fallback null. */
  lemma NullMemberGivesNull(returnClass: string, defaultReturn: string, parse: JsonParser, classes: ClassPath, key: string)
    requires !Contains(returnClass, "String")
    requires parse(defaultReturn).Some? && key in parse(defaultReturn).value
    requires parse(defaultReturn).value[key] == JsonNull
    ensures GetFallback(returnClass, defaultReturn, parse, classes) == Null
  {
  }
}

=== FILE: java_integer.dfy ===
/** Decimal `int` parsing and printing as `java.lang.Integer` does it: an
    optional sign, at least one ASCII digit, and a value within 32 bits. */
module JavaInteger {

  import opened Wrappers

  const MinInt: int := -0x8000_0000
  const MaxInt: int := 0x7FFF_FFFF

  /** The value fits a Java `int`. */
  predicate IsInt32(n: int) {
    MinInt <= n <= MaxInt
  }

  predicate IsDigit(c: char) {
    '0' <= c <= '9'
  }

  predicate AllDigits(s: string) {
    forall i :: 0 <= i < |s| ==> IsDigit(s[i])
  }

  function DigitValue(c: char): nat
    requires IsDigit(c)
  {
    c as int - '0' as int
  }

  function DigitChar(d: nat): (c: char)
    requires d < 10
    ensures IsDigit(c) && DigitValue(c) == d
  {
    ('0' as int + d) as char
  }

  /** The value of a run of decimal digits, most significant first. */
  function DigitsValue(s: string): nat
    requires AllDigits(s)
  {
    if |s| == 0 then 0 else DigitsValue(s[..|s| - 1]) * 10 + DigitValue(s[|s| - 1])
  }

  /** `Integer.parseInt(s)`; `None` where it throws `NumberFormatException`
      (empty text, a bare sign, a non-digit, or a value outside 32 bits). */
  function ParseInt(s: string): (r: Option<int>)
    ensures r.Some? ==> IsInt32(r.value)
    ensures r.Some? ==> |s| > 0 && (r.value < 0 ==> s[0] == '-')
    // what parses: an unsigned run of digits, or a sign followed by one,
    // whose (signed) value is the result
    ensures r.Some? && IsDigit(s[0]) ==> AllDigits(s) && r.value == DigitsValue(s)
    ensures r.Some? && s[0] == '+' ==> |s| > 1 && AllDigits(s[1..]) && r.value == DigitsValue(s[1..])
    ensures r.Some? && s[0] == '-' ==> |s| > 1 && AllDigits(s[1..]) && r.value == -(DigitsValue(s[1..]) as int)
    ensures r.Some? ==> IsDigit(s[0]) || s[0] == '+' || s[0] == '-'
    // what does not: a non-digit after the first position, or a bare sign
    ensures (exists i :: 0 < i < |s| && !IsDigit(s[i])) ==> r.None?
    ensures s == "-" || s == "+" ==> r.None?
    // and every digit run in range does
    ensures |s| > 0 && AllDigits(s) && DigitsValue(s) <= MaxInt ==> r == Some(DigitsValue(s))
    ensures |s| > 0 && AllDigits(s) && DigitsValue(s) > MaxInt ==> r.None?
    // and so does every signed digit run in range, leading zeros included
    ensures (&& |s| > 1 && (s[0] == '+' || s[0] == '-') && AllDigits(s[1..])
             && IsInt32(if s[0] == '-' then -(DigitsValue(s[1..]) as int) else DigitsValue(s[1..]))) ==> r.Some?
  {
    if |s| == 0 then None
    else
      var digits := if s[0] == '-' || s[0] == '+' then s[1..] else s;
      if |digits| == 0 || !AllDigits(digits) then None
      else
        var magnitude: int := DigitsValue(digits);
        var v: int := if s[0] == '-' then -magnitude else magnitude;
        if IsInt32(v) then Some(v) else None
  }

  /** `Integer.toString(n)` for a non-negative `n`. */
  function NatToString(n: nat): (r: string)
    ensures |r| > 0 && AllDigits(r)
  {
    if n < 10 then [DigitChar(n)] else NatToString(n / 10) + [DigitChar(n % 10)]
  }

  /** `Integer.toString(n)`. */
  function IntToString(n: int): string {
    if n < 0 then "-" + NatToString(-n) else NatToString(n)
  }

  lemma {:induction false} DigitsOfNatToString(n: nat)
    ensures DigitsValue(NatToString(n)) == n
  {
    if n >= 10 {
      DigitsOfNatToString(n / 10);
      var s := NatToString(n);
      assert s[..|s| - 1] == NatToString(n / 10);
    }
  }

  /** Parsing what `Integer.toString` prints gives the number back, for every
      32-bit value. */
  lemma ParseIntOfIntToString(n: int)
    requires IsInt32(n)
    ensures ParseInt(IntToString(n)) == Some(n)
  {
    if n < 0 {
      DigitsOfNatToString(-n);
      assert IntToString(n)[1..] == NatToString(-n);
    } else {
      DigitsOfNatToString(n);
    }
  }
}

=== FILE: java_lang.dfy ===
/** The Java runtime values that flow through the advice. */
module JavaLang {

  import opened Wrappers

  /** The exceptions that the modelled code can raise or let through. */
  datatype Exception =
    | StringIndexOutOfBounds(begin: int, end: int, length: int)  // String.substring with bad bounds
    | InvalidBoolean(text: string)                               // Spring could not convert a flag
    | JsonSyntax(text: string)                                   // fastjson found no object in the text
    | NullPointer                                                // a JSON member whose value is null
    | ClassNotFound(className: string)                           // Class.forName
    | Instantiation(className: string)                           // Class.newInstance
    | BadRequest(cause: string)                                  // a HystrixBadRequestException from the service
    | ServiceFailure(cause: string)                              // any other exception from the service

  /** A Java object as far as the advice can tell: `null`, a `String`, or a
      bean of a named class whose (string) fields are null or set. */
  datatype Value =
    | Null
    | Text(text: string)
    | Bean(className: string, fields: map<string, Option<string>>)
}

=== FILE: java_string.dfy ===
/** The few `java.lang.String` and commons-lang operations the advice relies on,
    with their documented edge cases: positions are `-1` when nothing is
    found, and `substring` throws instead of clamping. Case mapping covers
    ASCII letters only. */
module JavaString {

  import opened Wrappers
  import opened JavaLang

  /** `s.indexOf(c)`: the first position of `c`, or -1. */
  function IndexOf(s: string, c: char): (r: int)
    ensures -1 <= r < |s|
    ensures r == -1 <==> c !in s
    ensures 0 <= r ==> s[r] == c && c !in s[..r]
  {
    if |s| == 0 then -1
    else if s[0] == c then 0
    else
      var k := IndexOf(s[1..], c);
      if k == -1 then -1
      else
        assert s[..k + 1] == [s[0]] + s[1..][..k];
        k + 1
  }

  /** `s.lastIndexOf(c)`: the last position of `c`, or -1. */
  function LastIndexOf(s: string, c: char): (r: int)
    ensures -1 <= r < |s|
    ensures r == -1 <==> c !in s
    ensures 0 <= r ==> s[r] == c && c !in s[r + 1..]
  {
    if |s| == 0 then -1
    else if s[|s| - 1] == c then |s| - 1
    else
      var k := LastIndexOf(s[..|s| - 1], c);
      assert s == s[..|s| - 1] + [s[|s| - 1]];
      if k == -1 then -1
      else
        assert s[k + 1..] == s[..|s| - 1][k + 1..] + [s[|s| - 1]];
        k
  }

  /** `s.substring(begin, end)`: throws unless `0 <= begin <= end <= s.length()`. */
  function Substring(s: string, begin: int, end: int): (r: Result<string, Exception>)
    ensures r.Success? <==> 0 <= begin <= end <= |s|
    ensures r.Failure? ==> r.error == StringIndexOutOfBounds(begin, end, |s|)
    ensures r.Success? ==> |r.value| == end - begin
    ensures r.Success? ==> forall i :: 0 <= i < |r.value| ==> r.value[i] == s[begin + i]
  {
    if 0 <= begin <= end <= |s| then Success(s[begin..end])
    else Failure(StringIndexOutOfBounds(begin, end, |s|))
  }

  /** `pat` occurs in `s` starting at position `i`. */
  predicate OccursAt(s: string, pat: string, i: int) {
    0 <= i && i + |pat| <= |s| && s[i..i + |pat|] == pat
  }

  /** A slice of the tail is the slice of the whole shifted by one. */
  lemma TailSlice(s: string, a: int, b: int)
    requires 1 <= a <= b <= |s|
    ensures s[1..][a - 1..b - 1] == s[a..b]
  {
  }

  /** `s.contains(pat)`, case-sensitive. */
  function Contains(s: string, pat: string): (r: bool)
    ensures r <==> exists i :: OccursAt(s, pat, i)
    decreases |s|
  {
    if |pat| > |s| then false
    else if s[..|pat|] == pat then
      assert OccursAt(s, pat, 0);
      true
    else
      var r := Contains(s[1..], pat);
      if r then
        assert exists i :: OccursAt(s, pat, i) by {
          var i :| OccursAt(s[1..], pat, i);
          assert s[i + 1..i + 1 + |pat|] == s[1..][i..i + |pat|];
          assert OccursAt(s, pat, i + 1);
        }
        true
      else
        assert !exists i :: OccursAt(s, pat, i) by {
          forall i | 1 <= i
            ensures OccursAt(s, pat, i) ==> OccursAt(s[1..], pat, i - 1)
          {
            if i + |pat| <= |s| {
              TailSlice(s, i, i + |pat|);
            }
          }
        }
        false
  }

  /** `Character.isWhitespace(c)` as Java 9 and later define it (Unicode 6.3
      onwards): the Unicode space, line and paragraph separators other than
      the non-breaking ones, and the ASCII controls TAB, LF, VT, FF, CR and
      FS..US. Java 8 also counts U+180E, which later Unicode versions made a
      format character. */
  predicate IsWhitespace(c: char) {
    || c == '\t' || c == '\n' || c == '\U{B}' || c == '\U{C}' || c == '\r'
    || ('\U{1C}' <= c <= '\U{1F}')
    || c == ' ' || c == '\U{1680}'
    || ('\U{2000}' <= c <= '\U{2006}') || ('\U{2008}' <= c <= '\U{200A}')
    || c == '\U{2028}' || c == '\U{2029}' || c == '\U{205F}' || c == '\U{3000}'
  }

  /** `StringUtils.isBlank(s)`: null, empty, or whitespace only. */
  function IsBlank(s: Option<string>): (r: bool)
    ensures !r <==> s.Some? && exists i :: 0 <= i < |s.value| && !IsWhitespace(s.value[i])
    ensures s == Some("") ==> r
  {
    s.None? || forall i :: 0 <= i < |s.value| ==> IsWhitespace(s.value[i])
  }

  /** ASCII upper-casing of one character. */
  function UpperChar(c: char): char {
    if 'a' <= c <= 'z' then (c as int - 32) as char else c
  }

  /** ASCII lower-casing of one character. */
  function LowerChar(c: char): char {
    if 'A' <= c <= 'Z' then (c as int + 32) as char else c
  }

  /** `s.toLowerCase()` on ASCII letters. */
  function ToLowerCase(s: string): (r: string)
    ensures |r| == |s|
    ensures forall i :: 0 <= i < |s| ==> r[i] == LowerChar(s[i])
  {
    seq(|s|, i requires 0 <= i < |s| => LowerChar(s[i]))
  }

  /** Upper-casing and lower-casing identify the same pairs of characters. */
  lemma FoldsAgree(x: char, y: char)
    ensures UpperChar(x) == UpperChar(y) <==> LowerChar(x) == LowerChar(y)
  {
  }

  /** `a.equalsIgnoreCase(b)`: same length and the same characters up to
      case, compared upper-cased as Java does; the same as comparing the
      lower-cased texts. */
  function EqualsIgnoreCase(a: string, b: string): (r: bool)
    ensures r ==> |a| == |b|
    ensures r <==> ToLowerCase(a) == ToLowerCase(b)
  {
    assert forall x, y :: UpperChar(x) == UpperChar(y) <==> LowerChar(x) == LowerChar(y) by {
      forall x, y {
        FoldsAgree(x, y);
      }
    }
    assert |a| == |b| ==> (ToLowerCase(a) == ToLowerCase(b) <==> forall i :: 0 <= i < |a| ==> ToLowerCase(a)[i] == ToLowerCase(b)[i]);
    |a| == |b| && forall i :: 0 <= i < |a| ==> UpperChar(a[i]) == UpperChar(b[i])
  }

  /** `s[i..j]` is what `String.trim()` keeps of `s`: everything before `i`
      and from `j` on is a control character or space (code point at most
      U+0020), and the kept part starts and ends with something else. */
  ghost predicate TrimBounds(s: string, i: int, j: int) {
    && 0 <= i <= j <= |s|
    && (forall k :: 0 <= k < i ==> s[k] <= ' ')
    && (forall k :: j <= k < |s| ==> s[k] <= ' ')
    && (i < j ==> s[i] > ' ' && s[j - 1] > ' ')
  }

  /** The first position at or after `i` that `trim` keeps. */
  function TrimStart(s: string, i: nat): (k: nat)
    requires i <= |s|
    ensures i <= k <= |s|
    ensures forall m :: i <= m < k ==> s[m] <= ' '
    ensures k < |s| ==> s[k] > ' '
    decreases |s| - i
  {
    if i < |s| && s[i] <= ' ' then TrimStart(s, i + 1) else i
  }

  /** The end (exclusive) of what `trim` keeps of `s[start..len]`. */
  function TrimEnd(s: string, start: nat, len: nat): (k: nat)
    requires start <= len <= |s|
    ensures start <= k <= len
    ensures forall m :: k <= m < len ==> s[m] <= ' '
    ensures start < k ==> s[k - 1] > ' '
    decreases len
  {
    if start < len && s[len - 1] <= ' ' then TrimEnd(s, start, len - 1) else len
  }

  /** `s.trim()`: drops leading and trailing characters up to U+0020. */
  function Trim(s: string): (r: string)
    ensures exists i, j :: TrimBounds(s, i, j) && r == s[i..j]
  {
    var start := TrimStart(s, 0);
    var end := TrimEnd(s, start, |s|);
    assert TrimBounds(s, start, end);
    s[start..end]
  }
}

=== FILE: properties.dfy ===
/** The two configuration stores the advice reads, as plain key/value maps:
    Spring's `Environment` (the per-method switch) and Archaius's dynamic
    properties (timeout, fallback value, request size, isolation strategy).
    Every setting is looked up under its own prefix plus the method's
    configuration key and has a fixed default. */
module Properties {

  import opened Wrappers
  import opened JavaLang
  import opened JavaString
  import opened JavaInteger

  /** A property store: key to raw text; an absent key is an unset property. */
  type PropertySource = map<string, string>

  const MethodPrefix: string := "hystrix.method."
  const TimeoutPrefix: string := "hystrix.timeout."
  const RequestSizePrefix: string := "hystrix.requestSize."
  const IsolationStrategyPrefix: string := "hystrix.isolationStrategy."
  const DefaultReturnPrefix: string := "hystrix.default.return."

  const DefaultTimeout: int := 5000
  const DefaultReturnValue: string := ""
  const DefaultRequestSize: int := 50
  const DefaultStrategy: string := "THREAD"

  function MethodKey(serviceMethod: string): string { MethodPrefix + serviceMethod }
  function TimeoutKey(serviceMethod: string): string { TimeoutPrefix + serviceMethod }
  function RequestSizeKey(serviceMethod: string): string { RequestSizePrefix + serviceMethod }
  function StrategyKey(serviceMethod: string): string { IsolationStrategyPrefix + serviceMethod }
  function DefaultReturnKey(serviceMethod: string): string { DefaultReturnPrefix + serviceMethod }

  /** Archaius `getStringProperty(key, default).get()`. Archaius keeps a
      property's value with `String.trim` applied, so a set property reads
      as its trimmed text (possibly empty); an unset one reads as the
      default. */
  function DynamicString(source: PropertySource, key: string, default: string): (r: string)
    ensures key in source ==> r == Trim(source[key])
    ensures key in source ==> |r| == 0 || (r[0] > ' ' && r[|r| - 1] > ' ')
    ensures key !in source ==> r == default
  {
    if key in source then Trim(source[key]) else default
  }

  /** Archaius `getIntProperty(key, default).get()`: the trimmed text parsed
      as an `int`, or the default when the property is unset or does not
      parse. */
  function DynamicInt(source: PropertySource, key: string, default: int): (r: int)
    ensures IsInt32(default) ==> IsInt32(r)
    ensures key in source && ParseInt(Trim(source[key])).Some? ==> r == ParseInt(Trim(source[key])).value
    ensures key !in source || ParseInt(Trim(source[key])).None? ==> r == default
  {
    if key in source then ParseInt(Trim(source[key])).GetOr(default) else default
  }

  const TrueWords: set<string> := {"true", "on", "yes", "1"}
  const FalseWords: set<string> := {"false", "off", "no", "0"}

  /** Spring's text-to-`Boolean` conversion: trimmed and lower-cased, one of
      the four true or four false words; blank text converts to null, and
      anything else fails. */
  function ConvertBoolean(text: string): (r: Result<Option<bool>, Exception>)
    ensures r.Failure? ==> r.error == InvalidBoolean(text)
    ensures r == Success(None) <==> Trim(text) == ""
    ensures r == Success(Some(true)) <==> ToLowerCase(Trim(text)) in TrueWords
    ensures r == Success(Some(false)) <==> ToLowerCase(Trim(text)) in FalseWords
    ensures r.Failure? <==> Trim(text) != "" && ToLowerCase(Trim(text)) !in TrueWords + FalseWords
  {
    var value := Trim(text);
    if value == "" then Success(None)
    else
      var lower := ToLowerCase(value);
      if lower in TrueWords then Success(Some(true))
      else if lower in FalseWords then Success(Some(false))
      else Failure(InvalidBoolean(text))
  }

  /** Spring `environment.getProperty(key, Boolean.class, default)`: the
      default when the property is unset or blank; a conversion failure
      propagates as an exception. */
  function EnvironmentBoolean(source: PropertySource, key: string, default: bool): (r: Result<bool, Exception>)
    ensures key !in source ==> r == Success(default)
    ensures key in source ==> (r.Failure? <==> ConvertBoolean(source[key]).Failure?)
    ensures r.Failure? ==> key in source && r.error == InvalidBoolean(source[key])
    ensures key in source && ConvertBoolean(source[key]).Success? ==>
              r == Success(ConvertBoolean(source[key]).value.GetOr(default))
  {
    if key !in source then Success(default)
    else
      match ConvertBoolean(source[key])
      case Success(None) => Success(default)
      case Success(Some(b)) => Success(b)
      case Failure(e) => Failure(e)
  }

  /** The per-call settings read for one method (lines 109-120). */
  datatype Policy = Policy(
    timeout: int,
    defaultReturn: string,
    requestSize: int,
    strategy: string)

  /** Reads the four settings of `serviceMethod`, each under its own key and
      trimmed. A setting that is unset, or an `int` that does not parse,
      takes its default. */
  function ResolvePolicy(source: PropertySource, serviceMethod: string): (r: Policy)
    ensures IsInt32(r.timeout) && IsInt32(r.requestSize)
    ensures TimeoutKey(serviceMethod) !in source ==> r.timeout == DefaultTimeout
    ensures DefaultReturnKey(serviceMethod) !in source ==> r.defaultReturn == DefaultReturnValue
    ensures RequestSizeKey(serviceMethod) !in source ==> r.requestSize == DefaultRequestSize
    ensures StrategyKey(serviceMethod) !in source ==> r.strategy == DefaultStrategy
    ensures var k := TimeoutKey(serviceMethod);
            k in source && ParseInt(Trim(source[k])).Some? ==> r.timeout == ParseInt(Trim(source[k])).value
    ensures var k := RequestSizeKey(serviceMethod);
            k in source && ParseInt(Trim(source[k])).Some? ==> r.requestSize == ParseInt(Trim(source[k])).value
    ensures var k := TimeoutKey(serviceMethod);
            k in source && ParseInt(Trim(source[k])).None? ==> r.timeout == DefaultTimeout
    ensures var k := RequestSizeKey(serviceMethod);
            k in source && ParseInt(Trim(source[k])).None? ==> r.requestSize == DefaultRequestSize
    ensures var k := DefaultReturnKey(serviceMethod);
            k in source ==> r.defaultReturn == Trim(source[k])
    ensures var k := StrategyKey(serviceMethod);
            k in source ==> r.strategy == Trim(source[k])
  {
    Policy(
      DynamicInt(source, TimeoutKey(serviceMethod), DefaultTimeout),
      DynamicString(source, DefaultReturnKey(serviceMethod), DefaultReturnValue),
      DynamicInt(source, RequestSizeKey(serviceMethod), DefaultRequestSize),
      DynamicString(source, StrategyKey(serviceMethod), DefaultStrategy))
  }

  // ----- Lemmas -----

  /** With nothing configured, the policy is timeout 5000 ms, no fallback
      value, request size 50 and thread isolation. */
  lemma PolicyDefaults(serviceMethod: string)
    ensures ResolvePolicy(map[], serviceMethod) == Policy(5000, "", 50, "THREAD")
  {
  }

  /** The five keys of one method are pairwise different: they differ in the
      character right after `hystrix.`. */
  lemma KeysDistinct(serviceMethod: string)
    ensures var keys := [MethodKey(serviceMethod), TimeoutKey(serviceMethod), RequestSizeKey(serviceMethod),
                         StrategyKey(serviceMethod), DefaultReturnKey(serviceMethod)];
            forall i, j :: 0 <= i < j < |keys| ==> keys[i] != keys[j]
  {
    var keys := [MethodKey(serviceMethod), TimeoutKey(serviceMethod), RequestSizeKey(serviceMethod),
                 StrategyKey(serviceMethod), DefaultReturnKey(serviceMethod)];
    assert keys[0][8] == 'm' && keys[1][8] == 't' && keys[2][8] == 'r' && keys[3][8] == 'i' && keys[4][8] == 'd';
  }

  /** The two stores hold the same thing under `key`. */
  predicate AgreeOn(s1: PropertySource, s2: PropertySource, key: string) {
    (key in s1 <==> key in s2) && (key in s1 ==> s1[key] == s2[key])
  }

  /** Each setting depends on its own key only: two stores that agree on
      that key give the same value for it, whatever else they hold. */
  lemma SettingsIndependent(s1: PropertySource, s2: PropertySource, serviceMethod: string)
    ensures AgreeOn(s1, s2, TimeoutKey(serviceMethod))
            ==> ResolvePolicy(s1, serviceMethod).timeout == ResolvePolicy(s2, serviceMethod).timeout
    ensures AgreeOn(s1, s2, DefaultReturnKey(serviceMethod))
            ==> ResolvePolicy(s1, serviceMethod).defaultReturn == ResolvePolicy(s2, serviceMethod).defaultReturn
    ensures AgreeOn(s1, s2, RequestSizeKey(serviceMethod))
            ==> ResolvePolicy(s1, serviceMethod).requestSize == ResolvePolicy(s2, serviceMethod).requestSize
    ensures AgreeOn(s1, s2, StrategyKey(serviceMethod))
            ==> ResolvePolicy(s1, serviceMethod).strategy == ResolvePolicy(s2, serviceMethod).strategy
  {
  }

  /** `trim` keeps exactly `w` of `pad1 + w + pad2` when the padding is
      made of characters up to U+0020 and `w` starts and ends with others. */
  lemma TrimOfPadded(pad1: string, w: string, pad2: string)
    requires forall i :: 0 <= i < |pad1| ==> pad1[i] <= ' '
    requires forall i :: 0 <= i < |pad2| ==> pad2[i] <= ' '
    requires |w| > 0 && w[0] > ' ' && w[|w| - 1] > ' '
    ensures Trim(pad1 + w + pad2) == w
  {
    var s := pad1 + w + pad2;
    var t := Trim(s);
    var i, j :| TrimBounds(s, i, j) && t == s[i..j];
    assert s[|pad1|] == w[0];
    assert s[|pad1| + |w| - 1] == w[|w| - 1];
    assert forall k :: 0 <= k < |pad1| ==> s[k] == pad1[k];
    assert forall k :: |pad1| + |w| <= k < |s| ==> s[k] == pad2[k - |pad1| - |w|];
    assert i == |pad1|;
    assert j == |pad1| + |w|;
    assert t == w;
  }

  /** Spring reads a flag regardless of the case of its word and of
      surrounding spaces and control characters. */
  lemma ConvertBooleanIgnoresCaseAndPadding(pad1: string, w: string, pad2: string)
    requires forall i :: 0 <= i < |pad1| ==> pad1[i] <= ' '
    requires forall i :: 0 <= i < |pad2| ==> pad2[i] <= ' '
    requires ToLowerCase(w) in TrueWords || ToLowerCase(w) in FalseWords
    ensures ConvertBoolean(pad1 + w + pad2) == Success(Some(ToLowerCase(w) in TrueWords))
  {
    var lw := ToLowerCase(w);
    assert |lw| > 0 && lw[0] > ' ' && lw[|lw| - 1] > ' ';
    assert |w| > 0 && w[0] > ' ' && w[|w| - 1] > ' ';
    TrimOfPadded(pad1, w, pad2);
  }

  /** Any other word, whatever its padding, makes the conversion throw. */
  lemma ConvertBooleanRejectsOtherWords(pad1: string, w: string, pad2: string)
    requires forall i :: 0 <= i < |pad1| ==> pad1[i] <= ' '
    requires forall i :: 0 <= i < |pad2| ==> pad2[i] <= ' '
    requires |w| > 0 && w[0] > ' ' && w[|w| - 1] > ' '
    requires ToLowerCase(w) !in TrueWords + FalseWords
    ensures ConvertBoolean(pad1 + w + pad2) == Failure(InvalidBoolean(pad1 + w + pad2))
  {
    TrimOfPadded(pad1, w, pad2);
  }

  /** A switch stored as a (padded) word of any case reads as that word's
      truth value; any other non-blank text makes reading it throw. */
  lemma EnvironmentBooleanOfPaddedWord(source: PropertySource, key: string, default: bool,
                                       pad1: string, w: string, pad2: string)
    requires key in source && source[key] == pad1 + w + pad2
    requires forall i :: 0 <= i < |pad1| ==> pad1[i] <= ' '
    requires forall i :: 0 <= i < |pad2| ==> pad2[i] <= ' '
    requires |w| > 0 && w[0] > ' ' && w[|w| - 1] > ' '
    ensures ToLowerCase(w) in TrueWords ==> EnvironmentBoolean(source, key, default) == Success(true)
    ensures ToLowerCase(w) in FalseWords ==> EnvironmentBoolean(source, key, default) == Success(false)
    ensures ToLowerCase(w) !in TrueWords + FalseWords ==>
              EnvironmentBoolean(source, key, default) == Failure(InvalidBoolean(source[key]))
  {
    TrimOfPadded(pad1, w, pad2);
  }

  /** `Integer.toString` never prints padding, so trimming leaves it alone. */
  lemma TrimOfIntToString(n: int)
    ensures Trim(IntToString(n)) == IntToString(n)
  {
    var s := IntToString(n);
    var digits := NatToString(if n < 0 then -n else n);
    assert s[|s| - 1] == digits[|digits| - 1];
    TrimOfPadded("", s, "");
    assert "" + s + "" == s;
  }

  /** A padded number reads as the number: Archaius trims before parsing. */
  lemma DynamicIntOfPaddedNumber(source: PropertySource, key: string, default: int, pad1: string, n: int, pad2: string)
    requires IsInt32(n)
    requires forall i :: 0 <= i < |pad1| ==> pad1[i] <= ' '
    requires forall i :: 0 <= i < |pad2| ==> pad2[i] <= ' '
    requires key in source && source[key] == pad1 + IntToString(n) + pad2
    ensures DynamicInt(source, key, default) == n
  {
    var s := IntToString(n);
    var digits := NatToString(if n < 0 then -n else n);
    assert s[|s| - 1] == digits[|digits| - 1];
    TrimOfPadded(pad1, s, pad2);
    ParseIntOfIntToString(n);
  }
}

=== FILE: signature.dfy ===
/** What the advice reads off an intercepted method: the configuration key
    (`serviceMethod`), the return type name (`returnClass`) and the two
    Hystrix keys. All of it is index arithmetic on the long form of the
    signature, e.g. `public java.lang.String a.b.C.m()`. How the join point
    prints that long form is not fixed by the advice itself, so the printer
    is a parameter: AspectJ's layout and Spring AOP's layout are both
    given. */
module Signature {

  import opened Wrappers
  import opened JavaLang
  import opened JavaString

  /** `serviceMethod`: the text after the last space and before the last `(`.
      Throws when there is no `(` or a space follows the last `(`. */
  function ServiceMethod(sig: string): (r: Result<string, Exception>)
    ensures r.Success? <==> LastIndexOf(sig, ' ') < LastIndexOf(sig, '(')
    ensures r.Success? ==>
              var e := LastIndexOf(sig, '(');
              var b := e - |r.value|;
              && 0 <= b <= e && sig[b..e] == r.value && ' ' !in r.value
              && (b == 0 || sig[b - 1] == ' ')
    ensures r.Failure? ==> r.error.StringIndexOutOfBounds?
  {
    Substring(sig, LastIndexOf(sig, ' ') + 1, LastIndexOf(sig, '('))
  }

  /** `returnClass`: the text between the first and the last space. Throws
      when the signature has fewer than two spaces. */
  function ReturnClass(sig: string): (r: Result<string, Exception>)
    ensures r.Success? <==> IndexOf(sig, ' ') < LastIndexOf(sig, ' ')
    ensures r.Success? ==>
              var b := IndexOf(sig, ' ') + 1;
              var e := b + |r.value|;
              && 0 < b <= e < |sig| && sig[b..e] == r.value
              && sig[b - 1] == ' ' && ' ' !in sig[..b - 1]
              && sig[e] == ' ' && ' ' !in sig[e + 1..]
    ensures r.Failure? ==> r.error.StringIndexOutOfBounds?
  {
    Substring(sig, IndexOf(sig, ' ') + 1, LastIndexOf(sig, ' '))
  }

  /** The declaring type's simple name: everything after its last `.`, or
      the whole name when there is none. `substring(begin)` cannot throw
      here, since `begin` lies between 0 and the length. */
  function SimpleName(declaringTypeName: string): (r: string)
    ensures '.' !in r
    ensures |r| <= |declaringTypeName| && declaringTypeName[|declaringTypeName| - |r|..] == r
    ensures |r| < |declaringTypeName| ==> declaringTypeName[|declaringTypeName| - |r| - 1] == '.'
  {
    declaringTypeName[LastIndexOf(declaringTypeName, '.') + 1..]
  }

  /** The Hystrix group key: the declaring type's last segment, `.`, and
      the method name (which is also the command key). It is a suffix of
      `declaringType.name` that keeps exactly one dot. */
  function GroupKey(declaringTypeName: string, methodName: string): (r: string)
    ensures var key := declaringTypeName + "." + methodName;
            |r| <= |key| && key[|key| - |r|..] == r
    ensures |r| > |methodName| && r[|r| - |methodName| - 1..] == "." + methodName
    ensures '.' !in r[..|r| - |methodName| - 1]
    ensures var n := |r| - |methodName| - 1;
            n < |declaringTypeName| ==> declaringTypeName[|declaringTypeName| - n - 1] == '.'
  {
    var simple := SimpleName(declaringTypeName);
    assert (simple + "." + methodName)[..|simple|] == simple;
    simple + "." + methodName
  }

  // ----- The long form of a method signature -----

  /** A method signature: modifiers, return type, declaring type, name and
      parameter types, every part a single token. */
  datatype MethodSig = MethodSig(
    modifiers: seq<string>,
    returnType: string,
    declaringType: string,
    name: string,
    parameterTypes: seq<string>)

  /** A type or modifier name as it appears in a signature. */
  predicate IsToken(t: string) {
    |t| > 0 && ' ' !in t && '(' !in t && ')' !in t && ',' !in t
  }

  predicate WellFormed(m: MethodSig) {
    && (forall i :: 0 <= i < |m.modifiers| ==> IsToken(m.modifiers[i]))
    && IsToken(m.returnType)
    && IsToken(m.declaringType)
    && IsToken(m.name) && '.' !in m.name
    && (forall i :: 0 <= i < |m.parameterTypes| ==> IsToken(m.parameterTypes[i]))
  }

  /** `parts` separated by `sep`. */
  function Join(parts: seq<string>, sep: string): string {
    if |parts| == 0 then ""
    else if |parts| == 1 then parts[0]
    else parts[0] + sep + Join(parts[1..], sep)
  }

  /** How a join point prints its long form: the text between two
      parameter types, and whether a space is written before the return
      type when the method has no modifiers. */
  datatype Printer = Printer(parameterSeparator: string, spaceWithoutModifiers: bool)

  /** AspectJ's `toLongString`: `, ` between parameter types, nothing before
      the return type of a method without modifiers. */
  const AspectJ: Printer := Printer(", ", false)

  /** Spring AOP's `MethodInvocationProceedingJoinPoint`: `,` between
      parameter types, and always a space after the (possibly empty)
      modifiers. */
  const SpringAop: Printer := Printer(",", true)

  function ModifierPrefix(p: Printer, modifiers: seq<string>): string {
    if |modifiers| == 0 then (if p.spaceWithoutModifiers then " " else "")
    else Join(modifiers, " ") + " "
  }

  function QualifiedName(m: MethodSig): string {
    m.declaringType + "." + m.name
  }

  /** The long form: `modifiers returnType declaringType.name(p1<sep>p2)`. */
  function LongString(p: Printer, m: MethodSig): string {
    ModifierPrefix(p, m.modifiers) + m.returnType + " " + QualifiedName(m)
      + "(" + Join(m.parameterTypes, p.parameterSeparator) + ")"
  }

  // ----- Facts about positions in concatenations -----

  lemma LastIndexOfIs(s: string, c: char, k: int)
    requires 0 <= k < |s| && s[k] == c && c !in s[k + 1..]
    ensures LastIndexOf(s, c) == k
  {
  }

  lemma IndexOfIs(s: string, c: char, k: int)
    requires 0 <= k < |s| && s[k] == c && c !in s[..k]
    ensures IndexOf(s, c) == k
  {
  }

  /** The last `c` of `a + b` is in `b` when `b` has one. */
  lemma LastIndexOfInRight(a: string, b: string, c: char)
    requires c in b
    ensures LastIndexOf(a + b, c) == |a| + LastIndexOf(b, c)
  {
    var k := LastIndexOf(b, c);
    assert (a + b)[|a| + k + 1..] == b[k + 1..];
    LastIndexOfIs(a + b, c, |a| + k);
  }

  /** The last `c` of `a + b` is that of `a` when `b` has none. */
  lemma LastIndexOfInLeft(a: string, b: string, c: char)
    requires c in a && c !in b
    ensures LastIndexOf(a + b, c) == LastIndexOf(a, c)
  {
    var k := LastIndexOf(a, c);
    assert (a + b)[k + 1..] == a[k + 1..] + b;
    LastIndexOfIs(a + b, c, k);
  }

  /** No part and no separator holds `c`, so the joined text does not. */
  lemma {:induction false} JoinAvoids(parts: seq<string>, sep: string, c: char)
    requires c !in sep
    requires forall i :: 0 <= i < |parts| ==> c !in parts[i]
    ensures c !in Join(parts, sep)
  {
    if |parts| > 1 {
      JoinAvoids(parts[1..], sep, c);
    }
  }

  lemma ParametersAvoidParen(p: Printer, m: MethodSig)
    requires WellFormed(m) && '(' !in p.parameterSeparator
    ensures '(' !in Join(m.parameterTypes, p.parameterSeparator)
  {
    JoinAvoids(m.parameterTypes, p.parameterSeparator, '(');
  }

  /** The parameter list holds no space when there is at most one
      parameter or the separator has none. */
  lemma ParametersAvoidSpace(p: Printer, m: MethodSig)
    requires WellFormed(m)
    requires |m.parameterTypes| <= 1 || ' ' !in p.parameterSeparator
    ensures ' ' !in Join(m.parameterTypes, p.parameterSeparator)
  {
    if |m.parameterTypes| > 1 {
      JoinAvoids(m.parameterTypes, p.parameterSeparator, ' ');
    }
  }

  lemma ModifiersAvoidParen(p: Printer, m: MethodSig)
    requires WellFormed(m)
    ensures '(' !in ModifierPrefix(p, m.modifiers)
  {
    if |m.modifiers| > 0 {
      JoinAvoids(m.modifiers, " ", '(');
    }
  }

  // ----- What the extraction gives on a long form -----

  /** The last space of `head + t` ends `head` when `t` has none. */
  lemma LastSpaceEndsHead(head: string, t: string)
    requires |head| > 0 && head[|head| - 1] == ' ' && ' ' !in t
    ensures LastIndexOf(head + t, ' ') == |head| - 1
  {
    LastIndexOfIs(head, ' ', |head| - 1);
    LastIndexOfInLeft(head, t, ' ');
  }

  /** The last `(` of `head + q + "(" + rest` is the one after `q`. */
  lemma LastParenAfter(head: string, q: string, rest: string)
    requires '(' !in q && '(' !in rest
    ensures LastIndexOf(head + (q + "(" + rest), '(') == |head| + |q|
  {
    var t := q + "(" + rest;
    assert t[|q|] == '(' && t[|q| + 1..] == rest;
    LastIndexOfIs(t, '(', |q|);
    LastIndexOfInRight(head, t, '(');
  }

  /** `serviceMethod` of `head + q + "(" + rest`, where `head` ends with a
      space and nothing after it holds a space or another `(`. */
  lemma ServiceMethodOfParts(head: string, q: string, rest: string)
    requires |head| > 0 && head[|head| - 1] == ' '
    requires ' ' !in q && '(' !in q
    requires ' ' !in rest && '(' !in rest
    ensures ServiceMethod(head + (q + "(" + rest)) == Success(q)
  {
    var sig := head + (q + "(" + rest);
    LastSpaceEndsHead(head, q + "(" + rest);
    LastParenAfter(head, q, rest);
    assert sig[|head|..|head| + |q|] == q;
  }

  /** `serviceMethod` is the declaring type's name, a dot, and the method
      name, whenever the parameter list holds no space: at most one
      parameter, or a separator without a space (Spring AOP's). */
  lemma ServiceMethodOfLongString(p: Printer, m: MethodSig)
    requires WellFormed(m) && '(' !in p.parameterSeparator
    requires |m.parameterTypes| <= 1 || ' ' !in p.parameterSeparator
    ensures ServiceMethod(LongString(p, m)) == Success(QualifiedName(m))
  {
    var params := Join(m.parameterTypes, p.parameterSeparator);
    var head := ModifierPrefix(p, m.modifiers) + m.returnType + " ";
    var q := QualifiedName(m);
    assert LongString(p, m) == head + (q + "(" + (params + ")"));
    ParametersAvoidSpace(p, m);
    ParametersAvoidParen(p, m);
    ModifiersAvoidParen(p, m);
    ServiceMethodOfParts(head, q, params + ")");
  }

  /** `serviceMethod` throws on `head + q + "(" + rest` once `rest` holds a
      space and no `(`. */
  lemma ServiceMethodFailsOnParts(head: string, q: string, rest: string)
    requires '(' !in q && '(' !in rest && ' ' in rest
    ensures ServiceMethod(head + (q + "(" + rest)).Failure?
  {
    var t := q + "(" + rest;
    LastParenAfter(head, q, rest);
    assert t == (q + "(") + rest;
    LastIndexOfInRight(q + "(", rest, ' ');
    LastIndexOfInRight(head, t, ' ');
  }

  /** A method with two or more parameters, printed with a separator that
      holds a space (AspectJ's `, `): a space follows the last `(` and the
      substring for `serviceMethod` throws, before any flag is read. */
  lemma ServiceMethodFailsForSeveralParameters(p: Printer, m: MethodSig)
    requires WellFormed(m) && |m.parameterTypes| >= 2
    requires '(' !in p.parameterSeparator && ' ' in p.parameterSeparator
    ensures ServiceMethod(LongString(p, m)).Failure?
  {
    var sep := p.parameterSeparator;
    var params := Join(m.parameterTypes, sep);
    var head := ModifierPrefix(p, m.modifiers) + m.returnType + " ";
    var q := QualifiedName(m);
    assert LongString(p, m) == head + (q + "(" + (params + ")"));
    var k :| 0 <= k < |sep| && sep[k] == ' ';
    assert params == m.parameterTypes[0] + sep + Join(m.parameterTypes[1..], sep);
    assert (params + ")")[|m.parameterTypes[0]| + k] == ' ';
    ParametersAvoidParen(p, m);
    ServiceMethodFailsOnParts(head, q, params + ")");
  }

  /** The first space of `mod + " " + ret + " " + tail` ends `mod`. */
  lemma FirstSpaceEndsModifier(mod: string, ret: string, tail: string)
    requires ' ' !in mod
    ensures IndexOf(mod + " " + ret + " " + tail, ' ') == |mod|
  {
    var sig := mod + " " + ret + " " + tail;
    assert sig[|mod|] == ' ' && sig[..|mod|] == mod;
    IndexOfIs(sig, ' ', |mod|);
  }

  /** `returnClass` of `mod + " " + ret + " " + tail` with no space in
      `mod`, `ret` or `tail`. */
  lemma ReturnClassOfParts(mod: string, ret: string, tail: string)
    requires ' ' !in mod && ' ' !in ret && ' ' !in tail
    ensures ReturnClass(mod + " " + ret + " " + tail) == Success(ret)
  {
    var head := mod + " " + ret + " ";
    var sig := head + tail;
    FirstSpaceEndsModifier(mod, ret, tail);
    assert head[|head| - 1] == ' ';
    LastSpaceEndsHead(head, tail);
    assert sig[|mod| + 1..|head| - 1] == ret;
  }

  /** `returnClass` is the return type's name when exactly one word
      precedes it (one modifier, or none under a printer that still writes
      the space) and the parameter list holds no space. */
  lemma ReturnClassOfLongString(p: Printer, m: MethodSig)
    requires WellFormed(m)
    requires |m.modifiers| == 1 || (|m.modifiers| == 0 && p.spaceWithoutModifiers)
    requires |m.parameterTypes| <= 1 || ' ' !in p.parameterSeparator
    ensures ReturnClass(LongString(p, m)) == Success(m.returnType)
  {
    var params := Join(m.parameterTypes, p.parameterSeparator);
    var tail := QualifiedName(m) + "(" + params + ")";
    var mod := if |m.modifiers| == 1 then m.modifiers[0] else "";
    assert LongString(p, m) == mod + " " + m.returnType + " " + tail;
    ParametersAvoidSpace(p, m);
    ReturnClassOfParts(mod, m.returnType, tail);
  }

  /** Without a modifier, a printer that writes nothing before the return
      type (AspectJ's) leaves a single space, and the substring for
      `returnClass` throws. */
  lemma ReturnClassFailsWithoutModifier(p: Printer, m: MethodSig)
    requires WellFormed(m) && |m.modifiers| == 0 && !p.spaceWithoutModifiers
    requires |m.parameterTypes| <= 1 || ' ' !in p.parameterSeparator
    ensures ReturnClass(LongString(p, m)).Failure?
  {
    var params := Join(m.parameterTypes, p.parameterSeparator);
    var tail := QualifiedName(m) + "(" + params + ")";
    var head := m.returnType + " ";
    assert LongString(p, m) == head + tail;
    ParametersAvoidSpace(p, m);
    IndexOfIs(head + tail, ' ', |m.returnType|);
    LastSpaceEndsHead(head, tail);
  }

  /** Under Spring AOP's printer both extractions succeed for every method
      with at most one modifier, whatever its parameters. */
  lemma SpringAopLongFormParses(m: MethodSig)
    requires WellFormed(m) && |m.modifiers| <= 1
    ensures ServiceMethod(LongString(SpringAop, m)) == Success(QualifiedName(m))
    ensures ReturnClass(LongString(SpringAop, m)) == Success(m.returnType)
  {
    ServiceMethodOfLongString(SpringAop, m);
    ReturnClassOfLongString(SpringAop, m);
  }

  /** The group key of a qualified type is its last segment, a dot, and
      the method name; an unqualified type is kept whole. */
  lemma GroupKeyOfQualifiedType(pkg: string, simple: string, methodName: string)
    requires '.' !in simple
    ensures GroupKey(pkg + "." + simple, methodName) == simple + "." + methodName
    ensures GroupKey(simple, methodName) == simple + "." + methodName
  {
    var t := pkg + "." + simple;
    assert t[|pkg|] == '.';
    assert t[|pkg| + 1..] == simple;
    LastIndexOfIs(t, '.', |pkg|);
  }

  /** The group key is a suffix of the configuration key, so it always
      holds a dot and names the same method. */
  lemma GroupKeyIsSuffixOfServiceMethod(p: Printer, m: MethodSig)
    requires WellFormed(m) && '(' !in p.parameterSeparator
    requires |m.parameterTypes| <= 1 || ' ' !in p.parameterSeparator
    ensures ServiceMethod(LongString(p, m)) == Success(QualifiedName(m))
    ensures var key := QualifiedName(m);
            var g := GroupKey(m.declaringType, m.name);
            |g| <= |key| && key[|key| - |g|..] == g && '.' in g
  {
    GroupKeyInQualifiedName(m.declaringType, m.name, QualifiedName(m));
    ServiceMethodOfLongString(p, m);
  }

  lemma GroupKeyInQualifiedName(declaringTypeName: string, methodName: string, key: string)
    requires key == declaringTypeName + "." + methodName
    ensures var g := GroupKey(declaringTypeName, methodName);
            |g| <= |key| && key[|key| - |g|..] == g && '.' in g
  {
    var g := GroupKey(declaringTypeName, methodName);
    assert g[|g| - |methodName| - 1] == '.';
  }
}

=== FILE: wrappers.dfy ===
/** Failure-compatible wrappers used throughout the model: `Option` stands for a
    Java reference that may be null, `Result` for a computation that either
    returns or throws. */
module Wrappers {

  datatype Option<+T> = None | Some(value: T) {

    predicate IsFailure() {
      None?
    }

    function PropagateFailure<U>(): Option<U>
      requires None?
    {
      None
    }

    function Extract(): T
      requires Some?
    {
      value
    }

    /** The value, or `default` when there is none. */
    function GetOr(default: T): T {
      match this
      case Some(v) => v
      case None => default
    }
  }

  datatype Result<+R, +E> = Success(value: R) | Failure(error: E) {

    predicate IsFailure() {
      Failure?
    }

    function PropagateFailure<U>(): Result<U, E>
      requires Failure?
    {
      Failure(error)
    }

    function Extract(): R
      requires Success?
    {
      value
    }
  }
}
